=== FILE: README.md ===
# Kline ingestion, modelled in Dafny

The backend polls a market-chart endpoint for the bitcoin price and volume
history. It turns the latest sample into one open/high/low/close/volume record
(a "kline" or candle) and stores it in the `btc_kline` table unless a row with
the same timestamp is already there. All of this happens in `fetchKline`
(server.js, lines 24-78). That function retries only on HTTP 429 (rate
limited), with a budget of three attempts. This project models `fetchKline`
and proves what it guarantees.

- `wrappers.dfy`: `Option` for a JSON property that may be missing, and
  `Result` for a step that may throw.
- `kline.dfy` (module `Kline`): candle derivation. Timestamp and close come
  from the last price point and volume from the last volume point. Open is the
  previous price, falling back to close when that price is missing or falsy
  (`||`). High and low are the max and min of the last six prices
  (`slice(-6)`), taken as the positions from `max(0, n-6)` to the end.
- `ingest.dfy` (module `Ingest`): one attempt is split into `Fetch` (request
  and derivation, lines 31-51) and `Persist` (duplicate check and insert, lines
  53-65). `Loop` is a recursive reference for the retry loop over any retry budget, and
  `Run` fixes the program's budget of 3. `FetchKline` is the `while (retries > 0)`
  loop itself, proved equal to `Run`. The lemmas about the loop hold for every
  budget, so they cover the budget of 3 as one case.

Modelling choices:

- The HTTP client is replaced by a script: attempt `k` receives `script[k]`.
  That outcome is a 2xx body with an optional `prices` and an optional
  `total_volumes` series, a non-2xx status, or a network failure with no
  response. The script must hold at least three outcomes, one per possible
  attempt.
- The table is a sequence of `Candle` rows. Its schema is not part of
  server.js, and the code guards against duplicates only with its own SELECT
  (lines 53-57), so no uniqueness constraint is assumed. The duplicate check
  asks whether some row has the candidate's timestamp.
- Store failures are a `Fault` argument: healthy, the SELECT throws, or the
  INSERT throws. Every path that reaches the store ends the loop, so at most
  one attempt per invocation touches the store, and one value per invocation
  covers every case.
- Prices and volumes are integers. JavaScript truthiness of a number is
  "non-zero", so a previous price of `0` falls back to close.
- A database error has no `err.response`, so it never counts as a 429 and
  always ends the loop.

Consequences of the code as written:

- A missing volume series makes `volumes.length` (line 44) throw a TypeError.
  An empty one makes `latestVolume[1]` (line 48) throw. Neither error is a 429,
  so the loop stops with nothing inserted (`MissingVolumeStopsAtOnce`).
- Only status 429 is retried (lines 68-71). A timeout or any other error ends
  the loop.
- `open` is the second-to-last price unless that price is falsy (line 49).

Helpers without a row of their own: `Kline.WindowStart` is where `slice(-6)`
starts (six positions before the end, or 0 for a shorter series), and
`Kline.WindowHigh` and `Kline.WindowLow` are the `Math.max`/`Math.min` over
that slice, all of lines 50-51 and pinned down by the contract of
`Kline.Derive`. `Ingest.Conclude` is one attempt that did not
get a 429 (lines 38-75), pinned down by `Ingest.EndsAtFirstNonRateLimited` and
the contracts of `Ingest.Fetch` and `Ingest.Persist`.

## Model

| member | source | states |
|---|---|---|
| Kline.MaxFrom | server.js:50 | `Math.max` over the values from a position to the end is at least each of them and equal to one of them |
| Kline.MinFrom | server.js:51 | `Math.min` over the values from a position to the end is at most each of them and equal to one of them |
| Kline.Derive | server.js:43-51 | timestamp and close are the last price point, volume the last volume point; open is the previous price when present and non-zero, else close; high and low are attained by, and bound, the last ≤6 prices; `low <= close <= high` and `low <= open <= high` |
| Kline.DeriveIgnoresOlderPrices | server.js:43-51 | prepending older points to a series of at least six prices leaves the derived record unchanged |
| Kline.ShiftedHigh | server.js:50 | with at least six prices, points before them do not change the high of `slice(-6)` |
| Kline.ShiftedLow | server.js:51 | with at least six prices, points before them do not change the low of `slice(-6)` |
| Ingest.Fetch | server.js:31-51 | a record is produced exactly when the response is 2xx with non-empty prices and volumes, and it is then the derived candle; missing or empty prices give "No price data"; present prices with missing volumes give a TypeError; exactly a 429 status gives the rate-limit error |
| Ingest.Persist | server.js:53-65 | a stored timestamp leaves the store unchanged (duplicate); otherwise the store either gains exactly the candidate at the end or stays unchanged on a query or insert failure; with a healthy store the timestamp is stored afterwards; the store changes iff the exit is an insert; a store without duplicate timestamps stays without them |
| Ingest.Loop | server.js:29-77 | for any retry budget, the loop from attempt `i` makes between `i+1` and `budget` attempts (none once the budget is spent) and inserts at most one row, whose timestamp was absent, so a store without duplicate timestamps stays without them |
| Ingest.Run | server.js:24-78 | one invocation makes 1 to 3 attempts and inserts at most one row, whose timestamp was absent |
| Ingest.SkipRateLimited | server.js:68-71 | a run of 429 outcomes only spends retries: the loop continues at the next outcome as if it had started there |
| Ingest.EndsAtFirstNonRateLimited | server.js:29-76 | after `n` rate-limit outcomes the first other outcome alone decides the result, as attempt `n+1` |
| Ingest.ExhaustedIffAllRateLimited | server.js:27-77 | for any budget K, the loop runs out of retries iff all K outcomes are 429, and then it has made exactly K attempts and the store is unchanged |
| Ingest.MissingPricesStopsAtOnce | server.js:41 | missing or empty prices end the loop at that attempt with "No price data", spending no retry and leaving the store untouched whatever it holds and however it behaves |
| Ingest.MissingVolumeStopsAtOnce | server.js:44-48 | present prices with a missing or empty volume series end the loop at that attempt with no insert |
| Ingest.DeduplicatesOnTimestamp | server.js:53-65 | with a healthy store, a candidate whose timestamp is stored ends the loop as a duplicate with the store unchanged; otherwise exactly that candidate is appended and the loop ends |
| Ingest.SecondRunChangesNothing | server.js:53-65 | after a run against a healthy store, a second run on the same upstream outcomes leaves the store unchanged, however the store behaves the second time |
| Ingest.FetchKline | server.js:24-78 | the `while (retries > 0)` loop computes the same result as `Run`: 1 to 3 attempts, every attempt but the last got a 429; it ends by exhaustion only after three 429s and otherwise on a non-429 outcome; at most one row is inserted, and only if its timestamp was absent |

## Left out

- The express app, the `/` and `/kline` routes and `app.listen` (server.js:85-100) are HTTP plumbing. The ordering and limit of `/kline` are done in SQL.
- `setInterval` and the immediate first call (server.js:81-82) are left out, and so are the 10-second `delay` between retries (server.js:13, 71). They are timers with no state. A retry is modelled as moving to the next scripted outcome.
- axios and Postgres (server.js:18-21, 31-36, 53, 59-62) are replaced by the scripted outcomes, the `Fault` argument and a sequence of rows. db.js is a one-line pass-through to `pg.Pool` and is not part of this model.
- A store that commits an INSERT but then reports an error to the client is not modelled: an insert failure leaves the store unchanged.
- Floating-point prices, NaN, Infinity and `new Date(...)` are not modelled. Timestamps and values are integers, and three malformed inputs are not represented: a point that is not a two-element array, a 2xx body that is JSON `null` (so `res.data.prices` at line 38 throws a TypeError), and a `prices` or `total_volumes` value that is not an array. A JSON `null` body and a `prices` value that is not an array throw before the store is reached, so nothing is inserted. A point with fewer than two elements, or a `total_volumes` string, does not throw: line 47 or 48 reads `undefined`, and the row may be inserted with that field NULL or NaN, depending on a schema server.js does not show.
- Logging through `console.*` is left out.
- `app.use(cors())` runs before `const app` is declared (server.js:9 and 11), which throws when the module loads. Load order is outside the model.
- Only `fetchKline` is modelled.
- Overlapping runs are not modelled: runs are assumed not to overlap. `setInterval` (server.js:81) starts a run every hour whatever the previous run is doing, and `axios.get` (server.js:31-36) has no timeout, so two runs can be in flight at once. The SELECT (server.js:53) and the INSERT (server.js:59-62) are separate awaits, so the check-then-insert is not atomic: two overlapping runs can both see a timestamp absent and both insert it unless the table enforces uniqueness. The store is passed as a value, so `Ingest.Persist`, `Ingest.Loop` and the timestamp-uniqueness they preserve hold only when no other run writes between the check and the insert.
- Ingest.SecondRunChangesNothing: assumes the store answered the first run normally. After a failed SELECT or INSERT nothing was stored, so a second run may still insert.
- Ingest.FetchKline: requires at least three scripted upstream outcomes, one for each attempt the budget allows. A request that never completes leaves the run unfinished and is not modelled. Every completed request is one scripted outcome, so the requirement excludes no run that finishes.

=== FILE: ingest.dfy ===
/**
  The ingestion step `fetchKline` (server.js, lines 24-78): up to three
  attempts to fetch the latest candle, each followed, on success, by a
  duplicate check on the timestamp and at most one insert.

  The HTTP client is replaced by a scripted sequence of upstream outcomes,
  attempt `k` receiving `script[k]`; the kline table is a sequence of rows;
  the store's own failures are a `Fault` chosen by the caller.
 */
module Ingest {
  import opened Wrappers
  import opened Kline

  /** The retry budget (`let retries = 3`). */
  const Budget: nat := 3

  /** The only HTTP status that spends a retry. */
  const TooManyRequests: int := 429

  /** The two series of the upstream JSON body; either may be missing. */
  datatype Payload = Payload(prices: Option<seq<Point>>, totalVolumes: Option<seq<Point>>)

  /** What one GET to the market-chart endpoint yields. */
  datatype Upstream =
    | Response(data: Payload)   // a 2xx response
    | HttpError(status: int)    // a non-2xx response, thrown with `err.response.status`
    | NoResponse                // a network failure, thrown without `err.response`

  /**
    How the store behaves in this invocation. Every path that reaches the
    store ends the loop, so at most one attempt per invocation touches it.
   */
  datatype Fault = Healthy | QueryFails | InsertFails

  /** Everything that can be thrown inside the `try` block. */
  datatype Error =
    | NoPriceData          // `throw new Error("No price data")`
    | MissingVolume        // TypeError reading the last element of a missing or empty volume series
    | Http(status: int)
    | Network
    | QueryFailed
    | InsertFailed

  /** How the loop ended. */
  datatype Exit =
    | Inserted(candle: Candle)
    | Duplicate(candle: Candle)
    | Failed(error: Error)
    | Exhausted              // every attempt the budget allows got a 429

  /** The store step's verdict and the store after it. */
  datatype Effect = Effect(exit: Exit, store: seq<Candle>)

  /** The outcome of a whole invocation. */
  datatype Report = Report(exit: Exit, store: seq<Candle>, attempts: nat)

  /** A series that is present and non-empty. */
  predicate HasPoints(series: Option<seq<Point>>) {
    series.Some? && |series.value| > 0
  }

  /** The upstream answered 429, the one error that `catch` retries. */
  predicate IsRateLimited(u: Upstream) {
    u.HttpError? && u.status == TooManyRequests
  }

  /** Some row of the store carries timestamp `t` (`SELECT 1 … WHERE timestamp = $1`). */
  predicate HasTimestamp(store: seq<Candle>, t: int) {
    exists i :: 0 <= i < |store| && store[i].timestamp == t
  }

  /** No two rows of the store share a timestamp. */
  ghost predicate UniqueTimestamps(store: seq<Candle>) {
    forall i, j :: 0 <= i < j < |store| ==> store[i].timestamp != store[j].timestamp
  }

  /**
    The part of one attempt before the store (lines 31-51): the request and
    the derivation of the candidate record, or the error thrown on the way.
   */
  function Fetch(u: Upstream): (r: Result<Candle, Error>)
    ensures r == Err(Http(TooManyRequests)) <==> IsRateLimited(u)
    ensures r.Ok? <==> u.Response? && HasPoints(u.data.prices) && HasPoints(u.data.totalVolumes)
    ensures r.Ok? ==> r.value == Derive(u.data.prices.value, u.data.totalVolumes.value)
    ensures u.Response? && !HasPoints(u.data.prices) ==> r == Err(NoPriceData)
    ensures u.Response? && HasPoints(u.data.prices) && !HasPoints(u.data.totalVolumes) ==> r == Err(MissingVolume)
  {
    match u
    case HttpError(status) => Err(Http(status))
    case NoResponse => Err(Network)
    case Response(data) =>
      if !HasPoints(data.prices) then Err(NoPriceData)
      else if !HasPoints(data.totalVolumes) then Err(MissingVolume)
      else Ok(Derive(data.prices.value, data.totalVolumes.value))
  }

  /**
    The store step of an attempt (lines 53-65): skip a timestamp that is
    already stored, otherwise insert the candidate once. The SELECT and the
    INSERT are separate statements; the store is a value here, so no other
    run writes between them.
   */
  function Persist(c: Candle, fault: Fault, store: seq<Candle>): (e: Effect)
    ensures HasTimestamp(store, c.timestamp) ==> e.store == store
    ensures e.store == store || (e.store == store + [c] && !HasTimestamp(store, c.timestamp))
    ensures e.store != store <==> e.exit.Inserted?
    ensures e.exit.Inserted? || e.exit.Duplicate? ==> e.exit.candle == c
    ensures fault == Healthy ==> HasTimestamp(e.store, c.timestamp)
    ensures fault == Healthy ==> (e.exit.Duplicate? <==> HasTimestamp(store, c.timestamp))
    ensures fault == QueryFails ==> e == Effect(Failed(QueryFailed), store)
    ensures fault == InsertFails ==> e.store == store
    ensures UniqueTimestamps(store) ==> UniqueTimestamps(e.store)
    ensures !e.exit.Exhausted?
  {
    if fault == QueryFails then Effect(Failed(QueryFailed), store)
    else if HasTimestamp(store, c.timestamp) then Effect(Duplicate(c), store)
    else if fault == InsertFails then Effect(Failed(InsertFailed), store)
    else
      assert (store + [c])[|store|].timestamp == c.timestamp;
      Effect(Inserted(c), store + [c])
  }

  /** How an attempt whose upstream outcome is not a 429 ends the loop, as attempt number `attempts`. */
  function Conclude(u: Upstream, fault: Fault, store: seq<Candle>, attempts: nat): (r: Report) {
    match Fetch(u)
    case Ok(c) =>
      var e := Persist(c, fault, store);
      Report(e.exit, e.store, attempts)
    case Err(error) => Report(Failed(error), store, attempts)
  }

  /** The store after a run holds at most one more row, whose timestamp was not stored before. */
  ghost predicate AtMostOneInsert(before: seq<Candle>, r: Report) {
    || r.store == before
    || (&& r.exit.Inserted?
        && r.store == before + [r.exit.candle]
        && !HasTimestamp(before, r.exit.candle.timestamp))
  }

  /**
    The loop from attempt `i` on, with `budget - i` retries left (lines
    29-77). `fetchKline` starts with `Budget`; the properties below hold for
    every budget.
   */
  function Loop(script: seq<Upstream>, fault: Fault, store: seq<Candle>, budget: nat, i: nat): (r: Report)
    requires i <= budget <= |script|
    ensures i <= r.attempts <= budget
    ensures i < budget ==> i < r.attempts
    ensures AtMostOneInsert(store, r)
    ensures UniqueTimestamps(store) ==> UniqueTimestamps(r.store)
    decreases budget - i
  {
    if i == budget then Report(Exhausted, store, budget)
    else if IsRateLimited(script[i]) then Loop(script, fault, store, budget, i + 1)
    else Conclude(script[i], fault, store, i + 1)
  }

  /** One invocation of `fetchKline`. */
  function Run(script: seq<Upstream>, fault: Fault, store: seq<Candle>): (r: Report)
    requires |script| >= Budget
    ensures 1 <= r.attempts <= Budget
    ensures AtMostOneInsert(store, r)
  {
    Loop(script, fault, store, Budget, 0)
  }

  /** Attempts `0 .. n-1` all received a 429. */
  ghost predicate RateLimitedBefore(script: seq<Upstream>, n: nat)
    requires n <= |script|
  {
    forall k :: 0 <= k < n ==> IsRateLimited(script[k])
  }

  /** Rate-limited attempts only pass control on: from `i`, the loop reaches attempt `n` unchanged. */
  lemma {:induction false} SkipRateLimited(script: seq<Upstream>, fault: Fault, store: seq<Candle>, budget: nat, i: nat, n: nat)
    requires i <= n <= budget <= |script|
    requires forall k :: i <= k < n ==> IsRateLimited(script[k])
    ensures Loop(script, fault, store, budget, i) == Loop(script, fault, store, budget, n)
    decreases n - i
  {
    if i < n {
      SkipRateLimited(script, fault, store, budget, i + 1, n);
    }
  }

  /**
    The loop ends at the first attempt whose outcome is not a 429: after `n`
    rate-limit responses, attempt `n + 1` decides the result alone.
   */
  lemma EndsAtFirstNonRateLimited(script: seq<Upstream>, fault: Fault, store: seq<Candle>, budget: nat, n: nat)
    requires n < budget <= |script|
    requires RateLimitedBefore(script, n)
    requires !IsRateLimited(script[n])
    ensures Loop(script, fault, store, budget, 0) == Conclude(script[n], fault, store, n + 1)
  {
    SkipRateLimited(script, fault, store, budget, 0, n);
  }

  /** The first attempt from `i` on whose outcome is not a 429, when there is one. */
  function FirstNotRateLimited(script: seq<Upstream>, budget: nat, i: nat): (n: nat)
    requires i <= budget <= |script|
    requires !forall k :: i <= k < budget ==> IsRateLimited(script[k])
    ensures i <= n < budget
    ensures !IsRateLimited(script[n])
    ensures forall k :: i <= k < n ==> IsRateLimited(script[k])
    decreases budget - i
  {
    if !IsRateLimited(script[i]) then i else FirstNotRateLimited(script, budget, i + 1)
  }

  /**
    The loop runs out of retries exactly when every attempt the budget allows
    is rate limited, and then it has made `budget` attempts and inserted
    nothing.
   */
  lemma ExhaustedIffAllRateLimited(script: seq<Upstream>, fault: Fault, store: seq<Candle>, budget: nat)
    requires budget <= |script|
    ensures Loop(script, fault, store, budget, 0).exit.Exhausted? <==> RateLimitedBefore(script, budget)
    ensures RateLimitedBefore(script, budget) ==> Loop(script, fault, store, budget, 0) == Report(Exhausted, store, budget)
  {
    if RateLimitedBefore(script, budget) {
      SkipRateLimited(script, fault, store, budget, 0, budget);
    } else {
      var n := FirstNotRateLimited(script, budget, 0);
      EndsAtFirstNonRateLimited(script, fault, store, budget, n);
    }
  }

  /**
    Missing or empty prices end the loop at once: after `n` rate-limit
    responses, such a payload costs no retry and leaves the store untouched,
    whatever the store holds and however it behaves.
   */
  lemma MissingPricesStopsAtOnce(script: seq<Upstream>, fault: Fault, store: seq<Candle>, budget: nat, n: nat)
    requires n < budget <= |script|
    requires RateLimitedBefore(script, n)
    requires script[n].Response? && !HasPoints(script[n].data.prices)
    ensures Loop(script, fault, store, budget, 0) == Report(Failed(NoPriceData), store, n + 1)
  {
    EndsAtFirstNonRateLimited(script, fault, store, budget, n);
  }

  /**
    A present price series with a missing or empty volume series also ends
    the loop at once, with nothing inserted.
   */
  lemma MissingVolumeStopsAtOnce(script: seq<Upstream>, fault: Fault, store: seq<Candle>, budget: nat, n: nat)
    requires n < budget <= |script|
    requires RateLimitedBefore(script, n)
    requires script[n].Response? && HasPoints(script[n].data.prices) && !HasPoints(script[n].data.totalVolumes)
    ensures Loop(script, fault, store, budget, 0) == Report(Failed(MissingVolume), store, n + 1)
  {
    EndsAtFirstNonRateLimited(script, fault, store, budget, n);
  }

  /**
    With a healthy store, a candle whose timestamp is already stored ends the
    loop as a duplicate with the store as it was; a new one is appended once.
   */
  lemma DeduplicatesOnTimestamp(script: seq<Upstream>, store: seq<Candle>, budget: nat, n: nat)
    requires n < budget <= |script|
    requires RateLimitedBefore(script, n)
    requires Fetch(script[n]).Ok?
    ensures var c := Fetch(script[n]).value;
      && (HasTimestamp(store, c.timestamp) ==> Loop(script, Healthy, store, budget, 0) == Report(Duplicate(c), store, n + 1))
      && (!HasTimestamp(store, c.timestamp) ==> Loop(script, Healthy, store, budget, 0) == Report(Inserted(c), store + [c], n + 1))
  {
    var c := Fetch(script[n]).value;
    EndsAtFirstNonRateLimited(script, Healthy, store, budget, n);
    var e := Persist(c, Healthy, store);
    assert Loop(script, Healthy, store, budget, 0) == Report(e.exit, e.store, n + 1);
  }

  /**
    Idempotence: once a run with a healthy store has finished, a second run
    on the same upstream answers leaves the store unchanged, however the
    store behaves the second time.
   */
  lemma SecondRunChangesNothing(script: seq<Upstream>, fault: Fault, store: seq<Candle>, budget: nat)
    requires budget <= |script|
    ensures var first := Loop(script, Healthy, store, budget, 0).store;
      Loop(script, fault, first, budget, 0).store == first
  {
    var first := Loop(script, Healthy, store, budget, 0).store;
    if RateLimitedBefore(script, budget) {
      ExhaustedIffAllRateLimited(script, Healthy, store, budget);
      ExhaustedIffAllRateLimited(script, fault, first, budget);
    } else {
      var n := FirstNotRateLimited(script, budget, 0);
      EndsAtFirstNonRateLimited(script, Healthy, store, budget, n);
      EndsAtFirstNonRateLimited(script, fault, first, budget, n);
    }
  }

  /**
    The `while (retries > 0)` loop itself: each 429 costs one retry and moves
    to the next scripted outcome; every other outcome, and every store
    answer, breaks out of the loop.
   */
  method FetchKline(script: seq<Upstream>, fault: Fault, store: seq<Candle>)
    returns (exit: Exit, store': seq<Candle>, attempts: nat)
    requires |script| >= Budget
    ensures Report(exit, store', attempts) == Run(script, fault, store)
    ensures 1 <= attempts <= Budget
    ensures forall k :: 0 <= k < attempts - 1 ==> IsRateLimited(script[k])
    ensures exit.Exhausted? ==> attempts == Budget && IsRateLimited(script[Budget - 1])
    ensures !exit.Exhausted? ==> !IsRateLimited(script[attempts - 1])
    ensures AtMostOneInsert(store, Report(exit, store', attempts))
  {
    var retries := Budget;
    attempts, exit, store' := 0, Exhausted, store;
    while retries > 0
      invariant 0 <= retries && retries + attempts == Budget
      invariant forall k :: 0 <= k < attempts ==> IsRateLimited(script[k])
      invariant exit == Exhausted && store' == store
      invariant Loop(script, fault, store, Budget, attempts) == Run(script, fault, store)
    {
      var outcome := script[attempts];
      attempts := attempts + 1;
      var fetched := Fetch(outcome);
      if fetched.Ok? {
        var effect := Persist(fetched.value, fault, store');
        exit, store' := effect.exit, effect.store;
        break;
      } else if fetched.error == Http(TooManyRequests) {
        retries := retries - 1;
      } else {
        exit := Failed(fetched.error);
        break;
      }
    }
  }
}

=== FILE: kline.dfy ===
/**
  Candle derivation: turning the upstream price and volume series into one
  open/high/low/close/volume record (server.js, lines 43-51).

  Prices and volumes are modelled as integers; JavaScript's floating-point
  numbers, NaN and Infinity are outside the model.
 */
module Kline {

  /** One `[timestamp, value]` pair of an upstream series. */
  datatype Point = Point(time: int, value: int)

  /** One row of the kline table. */
  datatype Candle = Candle(timestamp: int, open: int, high: int, low: int, close: int, volume: int)

  /** The number of trailing prices that high and low are taken over (`slice(-6)`). */
  const WindowSize: nat := 6

  /**
    Where `prices.slice(-6)` starts: six positions before the end, or the
    start of the series when it is shorter.
   */
  function WindowStart(prices: seq<Point>): (lo: nat)
    ensures lo <= |prices|
    ensures |prices| - lo == if |prices| < WindowSize then |prices| else WindowSize
  {
    if |prices| < WindowSize then 0 else |prices| - WindowSize
  }

  /** `Math.max` of the values from position `lo` to the end of a series. */
  function MaxFrom(s: seq<Point>, lo: nat): (m: int)
    requires lo < |s|
    ensures forall i :: lo <= i < |s| ==> s[i].value <= m
    ensures exists i :: lo <= i < |s| && s[i].value == m
    decreases |s| - lo
  {
    if lo == |s| - 1 then s[lo].value
    else
      var rest := MaxFrom(s, lo + 1);
      if s[lo].value >= rest then s[lo].value else rest
  }

  /** `Math.min` of the values from position `lo` to the end of a series. */
  function MinFrom(s: seq<Point>, lo: nat): (m: int)
    requires lo < |s|
    ensures forall i :: lo <= i < |s| ==> m <= s[i].value
    ensures exists i :: lo <= i < |s| && s[i].value == m
    decreases |s| - lo
  {
    if lo == |s| - 1 then s[lo].value
    else
      var rest := MinFrom(s, lo + 1);
      if s[lo].value <= rest then s[lo].value else rest
  }

  /** JavaScript truthiness of a number: only zero is falsy (NaN is not modelled). */
  predicate Truthy(v: int) {
    v != 0
  }

  /** Index `i` is one of the last `WindowSize` positions of `prices`. */
  ghost predicate InWindow(prices: seq<Point>, i: int) {
    WindowStart(prices) <= i < |prices|
  }

  /** The previous price exists and is truthy, so `open` takes it instead of `close`. */
  predicate HasTruthyPrevious(prices: seq<Point>) {
    |prices| >= 2 && Truthy(prices[|prices| - 2].value)
  }

  /** `Math.max(...prices.slice(-6).map(p => p[1]))`. */
  function WindowHigh(prices: seq<Point>): (h: int)
    requires |prices| > 0
  {
    MaxFrom(prices, WindowStart(prices))
  }

  /** `Math.min(...prices.slice(-6).map(p => p[1]))`. */
  function WindowLow(prices: seq<Point>): (l: int)
    requires |prices| > 0
  {
    MinFrom(prices, WindowStart(prices))
  }

  /** `m` is the largest of the last `WindowSize` prices. */
  ghost predicate IsWindowMax(prices: seq<Point>, m: int) {
    && (forall i :: InWindow(prices, i) ==> prices[i].value <= m)
    && (exists i :: InWindow(prices, i) && prices[i].value == m)
  }

  /** `m` is the smallest of the last `WindowSize` prices. */
  ghost predicate IsWindowMin(prices: seq<Point>, m: int) {
    && (forall i :: InWindow(prices, i) ==> m <= prices[i].value)
    && (exists i :: InWindow(prices, i) && prices[i].value == m)
  }

  /**
    The record built from the latest sample: timestamp and close from the last
    price point, volume from the last volume point, open from the previous
    price (falling back to close), high and low over the last six prices.
   */
  function Derive(prices: seq<Point>, volumes: seq<Point>): (c: Candle)
    requires |prices| > 0 && |volumes| > 0
    ensures c.timestamp == prices[|prices| - 1].time
    ensures c.close == prices[|prices| - 1].value
    ensures c.volume == volumes[|volumes| - 1].value
    ensures HasTruthyPrevious(prices) ==> c.open == prices[|prices| - 2].value
    ensures !HasTruthyPrevious(prices) ==> c.open == c.close
    ensures IsWindowMax(prices, c.high)
    ensures IsWindowMin(prices, c.low)
    ensures c.low <= c.close <= c.high
    ensures c.low <= c.open <= c.high
  {
    var latestPrice := prices[|prices| - 1];
    var close := latestPrice.value;
    var open := if HasTruthyPrevious(prices) then prices[|prices| - 2].value else close;
    assert InWindow(prices, |prices| - 1);
    assert |prices| >= 2 ==> InWindow(prices, |prices| - 2);
    Candle(latestPrice.time, open, WindowHigh(prices), WindowLow(prices), close, volumes[|volumes| - 1].value)
  }

  /**
    Only the last six prices and the last volume matter: prepending older
    points to a series of at least six prices does not change the record.
   */
  lemma DeriveIgnoresOlderPrices(older: seq<Point>, prices: seq<Point>, volumes: seq<Point>)
    requires |prices| >= WindowSize && |volumes| > 0
    ensures Derive(older + prices, volumes) == Derive(prices, volumes)
  {
    var all := older + prices;
    assert all[|all| - 1] == prices[|prices| - 1];
    assert all[|all| - 2] == prices[|prices| - 2];
    assert EndsWith(all, prices, |older|);
    ShiftedHigh(all, prices, |older|);
    ShiftedLow(all, prices, |older|);
  }

  /** A series that ends in `prices` after `d` older points. */
  ghost predicate EndsWith(all: seq<Point>, prices: seq<Point>, d: nat) {
    && |all| == d + |prices|
    && forall i :: 0 <= i < |prices| ==> all[d + i] == prices[i]
  }

  /** Older points before a series of at least six prices do not change the window's high. */
  lemma ShiftedHigh(all: seq<Point>, prices: seq<Point>, d: nat)
    requires |prices| >= WindowSize
    requires EndsWith(all, prices, d)
    ensures WindowHigh(all) == WindowHigh(prices)
  {
    assert WindowStart(all) == d + WindowStart(prices);
    var ha :| WindowStart(all) <= ha < |all| && all[ha].value == WindowHigh(all);
    var hb :| WindowStart(prices) <= hb < |prices| && prices[hb].value == WindowHigh(prices);
    assert all[ha] == prices[ha - d] && all[d + hb] == prices[hb];
  }

  /** Older points before a series of at least six prices do not change the window's low. */
  lemma ShiftedLow(all: seq<Point>, prices: seq<Point>, d: nat)
    requires |prices| >= WindowSize
    requires EndsWith(all, prices, d)
    ensures WindowLow(all) == WindowLow(prices)
  {
    assert WindowStart(all) == d + WindowStart(prices);
    var la :| WindowStart(all) <= la < |all| && all[la].value == WindowLow(all);
    var lb :| WindowStart(prices) <= lb < |prices| && prices[lb].value == WindowLow(prices);
    assert all[la] == prices[la - d] && all[d + lb] == prices[lb];
  }
}

=== FILE: wrappers.dfy ===
/** Failure-carrying wrappers used across the model. */
module Wrappers {

  /** A value that may be absent, as a JavaScript property that may be `undefined`. */
  datatype Option<+T> = None | Some(value: T)

  /** The outcome of a step that either produces a value or throws an error. */
  datatype Result<+T, +E> = Ok(value: T) | Err(error: E)
}
